=== FILE: README.md ===
# MyGUI layer manager, modelled in Dafny

MyGUI's `LayerManager` owns the ordered set of named layers a GUI draws,
back to front, and the registry of layer factories that build them. A
layout description lists `Layer` elements; loading it builds a fresh batch
of layers and *merges* it with the active ones: a layer whose name
reappears keeps its identity (and so the widgets attached to it), takes
the position the description gives its name, and the freshly built
duplicate is deleted; a layer whose name disappeared is destroyed. The
manager also attaches root widgets to layers by name, answers which layer
exists or owns a node, finds the topmost widget under a point, and
registers the two built-in factories (`SimpleLayer`, `OverlappedLayer`)
on `initialise` and frees them on `shutdown`.

The model is functional. A layer is a record of an identity (the
pointer), a name and the factory that built it. The manager is a `State`
record: initialisation flag, active sequence, factory registry
(`map<string, FactoryId>`), widget-to-layer attachments, the counter that
hands out fresh identities, and two logs — every layer object and every
factory object freed, in order. Assertions and exceptions of the source
(`MYGUI_ASSERT`, `MYGUI_EXCEPT`) become `Aborted(state, fault)`, where
`state` is the state at the throw point, so partial effects stay visible.

Modules:

- `Wrappers` — `Option` and `Result`.
- `Layers` — layer records, faults, `IsExist`, first-match lookup `FindByName`, and facts about distinct sequences.
- `Registry` — `addLayerFactory`, both `removeLayerFactory` overloads, and the `std::map` key order `StrLess`.
- `Merge`, `MergeProperties` — the merge loop as written (`MergeOne`, `MergeAll`), a per-slot reference definition (`Reconciled`), and what the merge promises.
- `Batch` — the element loop of `_load`: skipping unnamed elements, the duplicate-name assertion, type resolution, the factory lookup.
- `Queries` — `isExistItem` and `getWidgetFromPoint`.
- `LayerManager`, `LayerManagerProperties` — the manager state, its invariant `Valid`, the operations, and the properties that span several calls.

A reader might expect the first of several same-named old layers to
survive a merge. The loop in `merge` (lines 180–202) moves each old layer
into the first slot with its name, and deletes whatever that slot held.
So a later old layer of the same name deletes the earlier one that was
already moved there, and the *last* one survives.
`MergeProperties.MergeDuplicateOldNames` proves this for any two
same-named old layers. It cannot happen in a running manager: every state
reachable from a fresh manager has unique active names
(`LayerManagerProperties.ReachableValid`).

The merge theorems rest on two assumptions, each named where it is used:

- *Unique old names*, `Distinct(Names(olds))`. `MergeIsReconciled`,
  `ReconciledStep`, `ReconciledStepAt`, `MergeKeepsMatched`,
  `MergeActiveFromInputs`, `MergeOtherSlotNotDisplaced`,
  `MergeDisplacedNotActive` and `MergeDestroysDisplaced` need it. Every
  reachable state meets it.
- *Distinct objects*, `Distinct(Ids(olds) + Ids(news))`: no object is both
  an old layer and a batch layer, and none occurs twice. `MergeOwnership`,
  `MergeOtherSlotNotDisplaced`, `MergeDisplacedNotActive` and
  `MergeDestroysDisplaced` need it. A freshly built batch meets it against
  the active layers of any valid state (`LayerManagerProperties.InputsDistinct`).

`MergeConserves`, `MergeOneConserves`, `MergeDestroysVanished`,
`MergeKeepsNewcomers` and `MergeDuplicateOldNames` hold for all inputs.

## Model

| member | source | states |
|---|---|---|
| Layers.IsExist | MyGUIEngine/src/MyGUI_LayerManager.cpp:169-176 | true exactly when some active layer carries the name |
| Layers.IsExistNames | MyGUIEngine/src/MyGUI_LayerManager.cpp:169-176 | the name check is the same as membership in the sequence of names |
| Layers.FindByName | MyGUIEngine/src/MyGUI_LayerManager.cpp:143-152 | the linear search by name returns the first matching position, and returns nothing exactly when no layer has the name |
| Layers.FindByNameOnNames | MyGUIEngine/src/MyGUI_LayerManager.cpp:185-196 | the search sees only names, so two sequences with the same names give the same answer |
| Layers.FindByNameUnique | MyGUIEngine/src/MyGUI_LayerManager.cpp:143-152 | with unique names, searching for the name of the layer at i finds exactly i |
| Registry.AddLayerFactory | MyGUIEngine/src/MyGUI_LayerManager.cpp:235-241 | fails with "already exists" exactly when the name is taken; otherwise adds the one new binding and keeps every other one |
| Registry.RemoveLayerFactoryNamed | MyGUIEngine/src/MyGUI_LayerManager.cpp:256-263 | fails with "not found" exactly when the name is unknown; otherwise drops only that key, and frees its factory exactly when asked to delete |
| Registry.AddThenRemoveNamed | MyGUIEngine/src/MyGUI_LayerManager.cpp:235-263 | registering a new name and then removing it with delete restores the registry and frees the registered factory |
| Registry.RemoveLayerFactoryByHandle | MyGUIEngine/src/MyGUI_LayerManager.cpp:243-254 | fails exactly when no key maps to the handle; otherwise it erases one binding: the first key bound to the handle in map order (`FirstBoundKey`) |
| Registry.StrLessTotal | MyGUIEngine/src/MyGUI_LayerManager.cpp:245 | the map's key order ranks any two different keys, so the first matching key is well defined |
| Registry.StrLessTransitive | MyGUIEngine/src/MyGUI_LayerManager.cpp:245 | the map's key order is transitive |
| Registry.StrLessIrreflexive | MyGUIEngine/src/MyGUI_LayerManager.cpp:245 | no key comes before itself in the map's key order |
| Registry.FirstBoundKeyUnique | MyGUIEngine/src/MyGUI_LayerManager.cpp:245-251 | at most one key is the first one bound to a handle, so removal by handle erases a well-defined entry |
| Merge.MergeOne | MyGUIEngine/src/MyGUI_LayerManager.cpp:183-201 | one pass of the outer loop keeps the slot names in place |
| Merge.MergeOneConserves | MyGUIEngine/src/MyGUI_LayerManager.cpp:183-201 | one pass loses no object and invents none: the old layer plus the slots equal the new slots plus the object it deletes |
| Merge.MergeAll | MyGUIEngine/src/MyGUI_LayerManager.cpp:178-206 | the new active sequence has exactly the batch's names, in the batch's order |
| Merge.MergeConserves | MyGUIEngine/src/MyGUI_LayerManager.cpp:178-206 | over the whole loop, old layers plus batch equal new active layers plus deleted objects, as a multiset |
| Merge.ReconciledStepAt | MyGUIEngine/src/MyGUI_LayerManager.cpp:180-202 | with unique old names, handling the first old layer does not change what any slot will hold in the end |
| Merge.ReconciledStep | MyGUIEngine/src/MyGUI_LayerManager.cpp:180-202 | the same for the whole reconciled sequence |
| Merge.MergeIsReconciled | MyGUIEngine/src/MyGUI_LayerManager.cpp:178-206 | with unique old names, each slot ends up holding the old layer of its name if there is one and that slot is the name's first, and otherwise the batch's layer |
| MergeProperties.MergeDestroysVanished | MyGUIEngine/src/MyGUI_LayerManager.cpp:197-201 | for all inputs, an old layer whose name the batch lacks is destroyed, and no active layer carries its name |
| MergeProperties.MergeKeepsMatched | MyGUIEngine/src/MyGUI_LayerManager.cpp:185-195 | an old layer whose name is in the batch keeps its identity and takes the first batch slot with that name |
| MergeProperties.MergeKeepsNewcomers | MyGUIEngine/src/MyGUI_LayerManager.cpp:180-205 | for all inputs, a batch layer whose name no old layer has stays in its slot |
| MergeProperties.MergeActiveFromInputs | MyGUIEngine/src/MyGUI_LayerManager.cpp:178-206 | every active layer after the merge is an old layer of its name or the batch's own layer for that slot |
| MergeProperties.MergeOwnership | MyGUIEngine/src/MyGUI_LayerManager.cpp:178-206 | with distinct input objects, every object ends up either active or deleted, never both and never twice: no leak and no double free |
| MergeProperties.MergeOtherSlotNotDisplaced | MyGUIEngine/src/MyGUI_LayerManager.cpp:189-192 | the batch layer replaced in slot p does not show up in any other slot |
| MergeProperties.MergeDisplacedNotActive | MyGUIEngine/src/MyGUI_LayerManager.cpp:189-192 | the batch layer an old one replaces is not active afterwards |
| MergeProperties.MergeDestroysDisplaced | MyGUIEngine/src/MyGUI_LayerManager.cpp:190 | the batch layer an old one replaces is deleted |
| MergeProperties.MergeDuplicateOldNames | MyGUIEngine/src/MyGUI_LayerManager.cpp:180-202 | for any two old layers of one name and any batch holding that name, the second old layer ends up in the first slot with the name, and the batch's layer there and then the first old layer are deleted, in that order |
| Batch.BuildBatch | MyGUIEngine/src/MyGUI_LayerManager.cpp:95-122 | the element loop only ever appends to the layers built so far, whether it finishes or aborts, and it aborts only on a duplicate name or an unknown factory type |
| Batch.ResolveType | MyGUIEngine/src/MyGUI_LayerManager.cpp:111-116 | an explicit type wins; with no type and a format version up to 1.0, `overlapped` picks OverlappedLayer over SimpleLayer; with no type and a later version, the empty type |
| Batch.AppendFreshName | MyGUIEngine/src/MyGUI_LayerManager.cpp:106-109 | appending a layer whose name passed the duplicate check keeps the names unique |
| Batch.NamedCons | MyGUIEngine/src/MyGUI_LayerManager.cpp:95-104 | a named first element leads the named elements, their names and their type requirements |
| Batch.BuildBatchSucceeds | MyGUIEngine/src/MyGUI_LayerManager.cpp:95-122 | the loop ends without assertion exactly when the names it meets are unique and every type they ask for has a factory |
| Batch.BuildBatchContents | MyGUIEngine/src/MyGUI_LayerManager.cpp:95-122 | a finished loop built one layer per named element, in document order, with consecutive fresh identities and the factory its type resolves to |
| Batch.BuildBatchSkipsUnnamed | MyGUIEngine/src/MyGUI_LayerManager.cpp:100-104 | an element without a name has no effect: the result is as if it were absent |
| Queries.IsExistItem | MyGUIEngine/src/MyGUI_LayerManager.cpp:214-221 | true exactly when some active layer says it owns the node |
| Queries.GetWidgetFromPoint | MyGUIEngine/src/MyGUI_LayerManager.cpp:223-233 | nothing exactly when no layer has an item there; otherwise the item of the topmost (last) layer that has one |
| Queries.TopLayerWins | MyGUIEngine/src/MyGUI_LayerManager.cpp:225-231 | when the upper of two layers has an item at the point, that item is the answer, whatever the lower one has |
| LayerManager.FreshValid | MyGUIEngine/src/MyGUI_LayerManager.cpp:41-55 | a manager before initialisation satisfies the invariant |
| LayerManager.Retain | MyGUIEngine/src/MyGUI_LayerManager.cpp:80 | keeps exactly the attachments whose layer is still live, with their layers unchanged |
| LayerManager.Initialise | MyGUIEngine/src/MyGUI_LayerManager.cpp:41-55 | a second initialisation aborts and changes nothing; otherwise it succeeds exactly when neither built-in type name is taken, binding both and setting the flag; a failed registration changes nothing but the registry, which keeps every earlier binding and at most gains the SimpleLayer one |
| LayerManager.Clear | MyGUIEngine/src/MyGUI_LayerManager.cpp:76-83 | destroys every active layer in order, leaves no active layer and no attachment, and changes nothing else |
| LayerManager.Shutdown | MyGUIEngine/src/MyGUI_LayerManager.cpp:57-74 | does nothing when not initialised; otherwise succeeds exactly when both built-in factories are registered, and then unregisters and frees them (overlapped first), destroys every layer, drops the flag and changes nothing else; a missing overlapped factory aborts with nothing changed, and a missing simple one aborts after the overlapped one has been removed and freed |
| LayerManager.ApplyMerge | MyGUIEngine/src/MyGUI_LayerManager.cpp:178-206 | the merged manager shows the batch's names and changes nothing but the layers, the deletion log and the attachments |
| LayerManager.LoadLayers | MyGUIEngine/src/MyGUI_LayerManager.cpp:90-126 | an assertion in the loop leaves the active layers and attachments as they were; a completed load shows exactly the description's names, in order; a load never touches the registry, the initialised flag or the freed-factory log |
| LayerManager.AttachToLayer | MyGUIEngine/src/MyGUI_LayerManager.cpp:134-155 | a non-root widget is refused with nothing changed; otherwise the widget's old attachment goes, it is attached exactly when a layer has the name, and then to the first such layer; no other widget moves |
| LayerManager.DetachFromLayer | MyGUIEngine/src/MyGUI_LayerManager.cpp:157-161 | the widget is attached nowhere afterwards, and every other attachment and the rest of the state are unchanged |
| LayerManagerProperties.LoadSucceeds | MyGUIEngine/src/MyGUI_LayerManager.cpp:90-126 | a load completes exactly when the description's names are unique and every named element's type has a factory |
| LayerManagerProperties.BatchIdsFresh | MyGUIEngine/src/MyGUI_LayerManager.cpp:121 | every layer the loop builds is a new object, numbered from the counter |
| LayerManagerProperties.LoadIsReconciled | MyGUIEngine/src/MyGUI_LayerManager.cpp:90-126 | from a valid state, a completed load leaves exactly the reconciliation of the old layers with the description's batch: each surviving name keeps its old layer at the first position the description gives it, and every other position holds the layer built for it |
| LayerManagerProperties.InputsDistinct | MyGUIEngine/src/MyGUI_LayerManager.cpp:121 | distinct old layers and a freshly built batch are distinct objects |
| LayerManagerProperties.InputBound | MyGUIEngine/src/MyGUI_LayerManager.cpp:178-206 | every object the merge is given is an old layer or a new one, and older than the advanced counter |
| LayerManagerProperties.MergedActiveBound | MyGUIEngine/src/MyGUI_LayerManager.cpp:205 | an active layer after the merge is an old layer or a batch layer |
| LayerManagerProperties.MergedFreedBound | MyGUIEngine/src/MyGUI_LayerManager.cpp:190-200 | an object the merge deletes is an old layer or a batch layer |
| LayerManagerProperties.MergedApart | MyGUIEngine/src/MyGUI_LayerManager.cpp:178-206 | after merging a fresh batch, the active objects are distinct and none of them is one the merge deleted |
| LayerManagerProperties.EarlierFreedStayFreed | MyGUIEngine/src/MyGUI_LayerManager.cpp:178-206 | an object freed before the merge does not come back to life |
| LayerManagerProperties.MergedFreedSound | MyGUIEngine/src/MyGUI_LayerManager.cpp:178-206 | after merging a fresh batch, every freed object, freed earlier or by this merge, is older than the advanced counter and not active |
| LayerManagerProperties.ApplyMergeValid | MyGUIEngine/src/MyGUI_LayerManager.cpp:178-206 | merging a fresh batch with unique names keeps the manager's invariant |
| LayerManagerProperties.LoadPreservesValid | MyGUIEngine/src/MyGUI_LayerManager.cpp:90-126 | a completed load keeps the invariant: unique active names, no freed layer active, attachments only to live layers |
| LayerManagerProperties.LoadKeepsLayer | MyGUIEngine/src/MyGUI_LayerManager.cpp:185-195 | after a reload, a layer whose name reappears keeps its identity and position by name, and keeps every widget attached to it |
| LayerManagerProperties.LoadDropsLayer | MyGUIEngine/src/MyGUI_LayerManager.cpp:197-201 | after a reload, a layer whose name is gone is destroyed, its name is not active, and its widgets are detached |
| LayerManagerProperties.LoadNewLayerEmpty | MyGUIEngine/src/MyGUI_LayerManager.cpp:121 | a layer that a reload introduces has no widget attached |
| LayerManagerProperties.AttachPreservesValid | MyGUIEngine/src/MyGUI_LayerManager.cpp:134-155 | attaching keeps the invariant: the widget only ever goes to a live layer |
| LayerManagerProperties.AttachTwiceLastWins | MyGUIEngine/src/MyGUI_LayerManager.cpp:139-150 | attaching to one layer and then to a second existing one leaves the widget under the second |
| LayerManagerProperties.AttachThenDetach | MyGUIEngine/src/MyGUI_LayerManager.cpp:134-161 | detaching after attaching gives the same state as detaching alone |
| LayerManagerProperties.ClearPreservesValid | MyGUIEngine/src/MyGUI_LayerManager.cpp:76-83 | clearing keeps the invariant |
| LayerManagerProperties.InitialiseShutdownRoundTrip | MyGUIEngine/src/MyGUI_LayerManager.cpp:41-74 | initialising and then shutting down restores the registry, frees both built-in factories (overlapped first) and destroys every layer |
| LayerManager.Step | MyGUIEngine/src/MyGUI_LayerManager.cpp:41-263 | only loading, clearing and shutting down change the active layers; every other call leaves them alone, whether it completes or aborts |
| LayerManagerProperties.InitialisePreservesValid | MyGUIEngine/src/MyGUI_LayerManager.cpp:41-55 | initialising keeps the invariant, whether it completes or aborts |
| LayerManagerProperties.ShutdownPreservesValid | MyGUIEngine/src/MyGUI_LayerManager.cpp:57-74 | shutting down keeps the invariant, whether it completes or aborts |
| LayerManagerProperties.DetachPreservesValid | MyGUIEngine/src/MyGUI_LayerManager.cpp:157-161 | detaching keeps the invariant |
| LayerManagerProperties.LoadAbortPreservesValid | MyGUIEngine/src/MyGUI_LayerManager.cpp:106-119 | a load that stops at an assertion keeps the invariant; only the counter moves on past the leaked layers |
| LayerManagerProperties.StepPreservesValid | MyGUIEngine/src/MyGUI_LayerManager.cpp:41-263 | every call on the manager keeps the invariant, whether it completes or aborts |
| LayerManagerProperties.RunPreservesValid | MyGUIEngine/src/MyGUI_LayerManager.cpp:41-263 | any sequence of calls keeps the invariant |
| LayerManagerProperties.ReachableValid | MyGUIEngine/src/MyGUI_LayerManager.cpp:41-263 | every state reachable from a fresh manager has unique active names and distinct active objects, no freed layer active, and attachments only to live layers |

## Left out

- `load` and XML parsing: reading a file through the resource manager is I/O. `_load` takes the already parsed `Layer` elements, and `findAttribute("name")` becomes an optional name.
- `utility::parseBool` is not part of this model: the `overlapped` attribute arrives as a boolean.
- Registration with the render, widget and resource managers in `initialise` and `shutdown`: these are calls into other singletons with no effect on the layer state.
- Logging has no effect on the state. Freeing memory is modelled only as an entry in the `destroyed` or `freedFactories` log.
- `createLayer`, `createItemNode`, `attachLayerItem` and node internals: the factory's construction becomes a layer record with a fresh identity, and an attachment becomes a widget-to-layer entry.
- Layer destruction dropping its widgets' attachments is the layer destructor's work, which is not part of this model. `Retain` states it as the manager sees it.
- `isRootWidget` is not part of this model: its answer is the `isRoot` parameter of `AttachToLayer`.
- The null-pointer assertions in `attachToLayerKeeper`, `detachFromLayer` and `upLayerItem` cannot trigger, because a widget identity always denotes a widget.
- `getLayerItemByPoint` and `existItemNode` are per-layer geometry and node lookups. They are parameters of the queries.
- `upLayerItem`, `doRender` and `_unlinkWidget` only forward to the widget or to each layer. `_unlinkWidget` is `DetachFromLayer`.
- The `nullptr` check in `merge` (line 182) is not modelled separately: the active sequence never holds a null layer, because `_load` pushes only constructed layers.
- The layers built before an assertion in `_load` (lines 108 and 119) are never freed; the model advances the counter past them and does not log them as destroyed.
- Merge.MergeIsReconciled and the other merge theorems listed above as needing unique old names do not cover duplicate old names. With duplicates the loop keeps the last one (`MergeDuplicateOldNames`), and no reachable state has duplicates (`ReachableValid`).
- Key order: names are taken as decoded UTF-8 strings, and `StrLess` compares code points. `std::map<std::string, …>` compares bytes, and the two orders agree on valid UTF-8.
- `Step` offers removal by name but not by handle. Removal by handle is a method in this model, and it changes only the registry, which the invariant does not constrain.

=== FILE: batch.dfy ===
/** `_load`'s main loop: building the batch of new layers from the
    `Layer` elements of a description, before it is merged. */
module Batch {
  import opened Wrappers
  import opened Layers
  import opened Registry

  /** A description format version, ordered major first. */
  datatype Version = Version(major: nat, minor: nat)

  predicate VersionLe(a: Version, b: Version)
  {
    a.major < b.major || (a.major == b.major && a.minor <= b.minor)
  }

  /** The last format version whose elements may choose their type with
      the legacy `overlapped` attribute. */
  const LegacyVersion: Version := Version(1, 0)

  /** A parsed `Layer` element: its `name` attribute if present, its `type`
      attribute (empty when absent) and its `overlapped` attribute read as a
      boolean. */
  datatype Element = Element(name: Option<string>, layerType: string, overlapped: bool)

  /** The factory type an element asks for. */
  function ResolveType(e: Element, v: Version): (t: string)
    ensures e.layerType != "" ==> t == e.layerType
    ensures e.layerType == "" && VersionLe(v, LegacyVersion) ==>
              (t == OverlappedLayerType <==> e.overlapped)
              && (t == SimpleLayerType <==> !e.overlapped)
    ensures e.layerType == "" && !VersionLe(v, LegacyVersion) ==> t == ""
  {
    if e.layerType == "" && VersionLe(v, LegacyVersion) then
      (if e.overlapped then OverlappedLayerType else SimpleLayerType)
    else e.layerType
  }

  /** How the loop ends: with the whole batch, or at an assertion, with the
      layers built up to that point (which are never freed). */
  datatype BatchResult =
    | Built(batch: seq<Layer>)
    | Failed(fault: Fault, leaked: seq<Layer>)

  /** The loop over the remaining elements `elems`, with the layers built
      so far in `acc` and the next fresh layer identity `next`. An element
      without a name is skipped; a name already in the batch, or a type no
      factory is registered for, aborts the loop. */
  function BuildBatch(elems: seq<Element>, v: Version, reg: Registry, acc: seq<Layer>, next: LayerId): (r: BatchResult)
    ensures r.Built? ==> |r.batch| >= |acc| && r.batch[..|acc|] == acc
    ensures r.Failed? ==> |r.leaked| >= |acc| && r.leaked[..|acc|] == acc
    ensures r.Failed? ==> r.fault.DuplicateLayer? || r.fault.UnknownFactory?
    decreases |elems|
  {
    if elems == [] then Built(acc)
    else
      var e := elems[0];
      match e.name
      case None => BuildBatch(elems[1..], v, reg, acc, next)
      case Some(n) =>
        if IsExist(acc, n) then Failed(DuplicateLayer(n), acc)
        else
          var t := ResolveType(e, v);
          if t !in reg then Failed(UnknownFactory(t), acc)
          else BuildBatch(elems[1..], v, reg, acc + [Layer(next, n, reg[t])], next + 1)
  }

  /** The elements that carry a name, in document order. */
  function Named(elems: seq<Element>): (r: seq<Element>)
    ensures forall k :: 0 <= k < |r| ==> r[k].name.Some?
    ensures |r| <= |elems|
  {
    if elems == [] then []
    else if elems[0].name.Some? then [elems[0]] + Named(elems[1..])
    else Named(elems[1..])
  }

  /** Their names. */
  function NamesOf(named: seq<Element>): (r: seq<string>)
    requires forall k :: 0 <= k < |named| ==> named[k].name.Some?
    ensures |r| == |named|
    ensures forall k :: 0 <= k < |named| ==> r[k] == named[k].name.value
  {
    seq(|named|, k requires 0 <= k < |named| => named[k].name.value)
  }

  /** The names of the layers a description asks for, in document order. */
  function BatchNames(elems: seq<Element>): seq<string>
  {
    NamesOf(Named(elems))
  }

  /** Every named element asks for a registered factory type. */
  predicate TypesKnown(named: seq<Element>, v: Version, reg: Registry)
  {
    forall k :: 0 <= k < |named| ==> ResolveType(named[k], v) in reg
  }

  /** The layer the loop builds for the `k`-th named element. */
  function LayerFor(named: seq<Element>, v: Version, reg: Registry, next: LayerId, k: nat): Layer
    requires k < |named|
    requires named[k].name.Some?
    requires ResolveType(named[k], v) in reg
  {
    Layer(next + k, named[k].name.value, reg[ResolveType(named[k], v)])
  }

  /** Appending a layer whose name is new keeps the names unique. */
  lemma {:induction false} AppendFreshName(acc: seq<Layer>, l: Layer)
    requires Distinct(Names(acc))
    requires !IsExist(acc, l.name)
    ensures Distinct(Names(acc + [l]))
  {
    var acc' := acc + [l];
    forall i, j | 0 <= i < j < |acc'| ensures Names(acc')[i] != Names(acc')[j] {
      if j == |acc| {
        assert Names(acc)[i] == acc[i].name;
      } else {
        assert Names(acc)[i] == Names(acc')[i] && Names(acc)[j] == Names(acc')[j];
      }
    }
  }

  /** The named elements of a description that starts with a named element. */
  lemma {:induction false} NamedCons(elems: seq<Element>, v: Version, reg: Registry)
    requires elems != [] && elems[0].name.Some?
    ensures Named(elems) == [elems[0]] + Named(elems[1..])
    ensures NamesOf(Named(elems)) == [elems[0].name.value] + NamesOf(Named(elems[1..]))
    ensures TypesKnown(Named(elems), v, reg) <==>
              ResolveType(elems[0], v) in reg && TypesKnown(Named(elems[1..]), v, reg)
  {
    var named := Named(elems);
    var tail := Named(elems[1..]);
    assert named == [elems[0]] + tail;
    assert forall k :: 0 <= k < |tail| ==> named[k + 1] == tail[k];
    assert NamesOf(named) == [elems[0].name.value] + NamesOf(tail);
  }

  /** The loop succeeds exactly when the names it meets are unique and every
      type they ask for is registered. */
  lemma {:induction false} BuildBatchSucceeds(elems: seq<Element>, v: Version, reg: Registry, acc: seq<Layer>, next: LayerId)
    requires Distinct(Names(acc))
    ensures BuildBatch(elems, v, reg, acc, next).Built? <==>
              Distinct(Names(acc) + BatchNames(elems)) && TypesKnown(Named(elems), v, reg)
    decreases |elems|
  {
    if elems != [] {
      var e := elems[0];
      var tail := elems[1..];
      match e.name
      case None =>
        assert Named(elems) == Named(tail);
        BuildBatchSucceeds(tail, v, reg, acc, next);
      case Some(n) =>
        NamedCons(elems, v, reg);
        var all := Names(acc) + BatchNames(elems);
        assert all == (Names(acc) + [n]) + BatchNames(tail);
        if IsExist(acc, n) {
          var i :| 0 <= i < |acc| && acc[i].name == n;
          assert all[i] == n == all[|acc|];
        } else if ResolveType(e, v) in reg {
          var acc' := acc + [Layer(next, n, reg[ResolveType(e, v)])];
          assert Names(acc') == Names(acc) + [n];
          AppendFreshName(acc, acc'[|acc|]);
          BuildBatchSucceeds(tail, v, reg, acc', next + 1);
        }
    }
  }

  /** A successful batch extends `acc` with one layer per named element, in
      document order, with consecutive fresh identities and the factory its
      type resolves to. */
  lemma {:induction false} BuildBatchContents(elems: seq<Element>, v: Version, reg: Registry, acc: seq<Layer>, next: LayerId)
    requires BuildBatch(elems, v, reg, acc, next).Built?
    ensures var named := Named(elems);
            var b := BuildBatch(elems, v, reg, acc, next).batch;
            TypesKnown(named, v, reg)
            && |b| == |acc| + |named| && b[..|acc|] == acc
            && forall k :: 0 <= k < |named| ==> b[|acc| + k] == LayerFor(named, v, reg, next, k)
    decreases |elems|
  {
    if elems != [] {
      var e := elems[0];
      var tail := elems[1..];
      match e.name
      case None =>
        assert Named(elems) == Named(tail);
        BuildBatchContents(tail, v, reg, acc, next);
      case Some(n) =>
        NamedCons(elems, v, reg);
        var named := Named(elems);
        var acc' := acc + [Layer(next, n, reg[ResolveType(e, v)])];
        BuildBatchContents(tail, v, reg, acc', next + 1);
        var b := BuildBatch(tail, v, reg, acc', next + 1).batch;
        assert b[..|acc|] == b[..|acc'|][..|acc|];
        forall k | 0 <= k < |named|
          ensures b[|acc| + k] == LayerFor(named, v, reg, next, k)
        {
          if k == 0 {
            assert named[0] == e;
            assert b[|acc|] == acc'[|acc|] == LayerFor(named, v, reg, next, 0);
          } else {
            assert named[k] == Named(tail)[k - 1];
            assert LayerFor(named, v, reg, next, k) == LayerFor(Named(tail), v, reg, next + 1, k - 1);
            assert b[|acc| + k] == b[|acc'| + (k - 1)];
          }
        }
    }
  }

  /** An element without a name does not influence the loop: the result is
      the same as for the description with that element removed. */
  lemma {:induction false} BuildBatchSkipsUnnamed(elems: seq<Element>, v: Version, reg: Registry, acc: seq<Layer>, next: LayerId, i: nat)
    requires i < |elems| && elems[i].name.None?
    ensures BuildBatch(elems, v, reg, acc, next) == BuildBatch(elems[..i] + elems[i + 1..], v, reg, acc, next)
    decreases i
  {
    var rest := elems[..i] + elems[i + 1..];
    if i == 0 {
      assert rest == elems[1..];
    } else {
      var tail := elems[1..];
      assert rest[0] == elems[0];
      assert rest[1..] == tail[..i - 1] + tail[i..];
      match elems[0].name
      case None =>
        BuildBatchSkipsUnnamed(tail, v, reg, acc, next, i - 1);
      case Some(n) =>
        if !IsExist(acc, n) && ResolveType(elems[0], v) in reg {
          var acc' := acc + [Layer(next, n, reg[ResolveType(elems[0], v)])];
          BuildBatchSkipsUnnamed(tail, v, reg, acc', next + 1, i - 1);
        }
    }
  }
}

=== FILE: layers.dfy ===
/** Layer records and the name-based lookups the layer manager performs
    over its ordered sequence of layers. */
module Layers {
  import opened Wrappers

  /** Identity of a layer object (an `ILayer*` in C++). */
  type LayerId = nat
  /** Identity of a factory object registered under a type name. */
  type FactoryId = nat
  /** Identity of a root widget. */
  type WidgetId = nat
  /** Identity of a layer node (the attachment slot a layer hands out). */
  type NodeId = nat

  /** Type names of the two factories the manager registers itself. */
  const SimpleLayerType: string := "SimpleLayer"
  const OverlappedLayerType: string := "OverlappedLayer"

  /** A layer keeper: its identity, the name it is found by, and the
      factory that built it. */
  datatype Layer = Layer(id: LayerId, name: string, factory: FactoryId)

  /** The assertion failures and exceptions the manager can raise. */
  datatype Fault =
    | AlreadyInitialised
    | DuplicateLayer(name: string)
    | UnknownFactory(typeName: string)
    | FactoryExists(name: string)
    | FactoryNotFound(name: string)
    | FactoryHandleNotFound(handle: FactoryId)
    | NotRootWidget(widget: WidgetId)

  function Names(ls: seq<Layer>): (r: seq<string>)
    ensures |r| == |ls|
    ensures forall i :: 0 <= i < |ls| ==> r[i] == ls[i].name
  {
    seq(|ls|, i requires 0 <= i < |ls| => ls[i].name)
  }

  function Ids(ls: seq<Layer>): (r: seq<LayerId>)
    ensures |r| == |ls|
    ensures forall i :: 0 <= i < |ls| ==> r[i] == ls[i].id
  {
    seq(|ls|, i requires 0 <= i < |ls| => ls[i].id)
  }

  /** No value occurs twice in `s`. */
  predicate Distinct<T(==)>(s: seq<T>)
  {
    forall i, j :: 0 <= i < j < |s| ==> s[i] != s[j]
  }

  /** Every layer of `ls` is older than the counter value `next`. */
  predicate OlderThan(ls: seq<Layer>, next: LayerId)
  {
    forall i :: 0 <= i < |ls| ==> ls[i].id < next
  }

  /** `isExist`: some layer of the sequence carries `name`. */
  function IsExist(ls: seq<Layer>, name: string): (r: bool)
    ensures r <==> exists i :: 0 <= i < |ls| && ls[i].name == name
  {
    if ls == [] then false
    else if ls[0].name == name then true
    else
      var rest := IsExist(ls[1..], name);
      assert forall i :: 0 <= i < |ls| - 1 ==> ls[1..][i] == ls[i + 1];
      rest
  }

  /** The same question, put to the sequence of names. */
  lemma {:induction false} IsExistNames(ls: seq<Layer>, name: string)
    ensures IsExist(ls, name) <==> name in Names(ls)
  {
    if IsExist(ls, name) {
      var i :| 0 <= i < |ls| && ls[i].name == name;
      assert Names(ls)[i] == name;
    }
  }

  /** Position of the first layer named `name`: the linear search that
      both `merge` and `attachToLayerKeeper` perform. */
  function FindByName(ls: seq<Layer>, name: string): (r: Option<nat>)
    ensures r.None? <==> !IsExist(ls, name)
    ensures r.Some? ==> r.value < |ls| && ls[r.value].name == name
    ensures r.Some? ==> forall j :: 0 <= j < r.value ==> ls[j].name != name
  {
    if ls == [] then None
    else if ls[0].name == name then Some(0)
    else
      match FindByName(ls[1..], name)
      case None => None
      case Some(k) => Some(k + 1)
  }

  /** The search depends only on the names, so it gives the same answer on
      two sequences that carry the same names in the same order. */
  lemma {:induction false} FindByNameOnNames(a: seq<Layer>, b: seq<Layer>, name: string)
    requires Names(a) == Names(b)
    ensures FindByName(a, name) == FindByName(b, name)
  {
    if a != [] {
      assert a[0].name == Names(a)[0] == Names(b)[0] == b[0].name;
      assert Names(a[1..]) == Names(a)[1..];
      assert Names(b[1..]) == Names(b)[1..];
      FindByNameOnNames(a[1..], b[1..], name);
    }
  }

  /** In a sequence with unique names, the layer at index `i` is the one
      the search finds for its own name. */
  lemma {:induction false} FindByNameUnique(ls: seq<Layer>, i: nat)
    requires Distinct(Names(ls))
    requires i < |ls|
    ensures FindByName(ls, ls[i].name) == Some(i)
  {
    var r := FindByName(ls, ls[i].name);
    assert r.Some?;
    var k := r.value;
    assert k <= i;
    assert ls[k].name == ls[i].name;
    assert Names(ls)[k] == Names(ls)[i];
    assert k == i;
  }

  /** A sequence of distinct values holds each value at most once, and
      conversely. */
  lemma {:induction false} DistinctMultiplicity<T>(s: seq<T>)
    ensures Distinct(s) <==> forall x :: multiset(s)[x] <= 1
  {
    if s != [] {
      DistinctMultiplicity(s[1..]);
      assert s == [s[0]] + s[1..];
      assert multiset(s) == multiset{s[0]} + multiset(s[1..]);
      if Distinct(s) {
        assert Distinct(s[1..]) by {
          forall i, j | 0 <= i < j < |s[1..]| ensures s[1..][i] != s[1..][j] {
            assert s[1..][i] == s[i + 1] && s[1..][j] == s[j + 1];
          }
        }
        assert s[0] !in s[1..] by {
          forall k | 0 <= k < |s[1..]| ensures s[1..][k] != s[0] {
            assert s[1..][k] == s[k + 1];
          }
        }
      } else {
        var i, j :| 0 <= i < j < |s| && s[i] == s[j];
        if i == 0 {
          assert s[1..][j - 1] == s[0];
          assert multiset(s)[s[0]] >= 2;
        } else {
          assert s[1..][i - 1] == s[1..][j - 1];
          assert !Distinct(s[1..]);
          var x :| multiset(s[1..])[x] > 1;
          assert multiset(s)[x] > 1;
        }
      }
    }
  }

  /** A concatenation has distinct values exactly when both parts do and
      they share none. */
  lemma {:induction false} DistinctConcat<T>(a: seq<T>, b: seq<T>)
    ensures Distinct(a + b) <==>
              Distinct(a) && Distinct(b) && forall i, j :: 0 <= i < |a| && 0 <= j < |b| ==> a[i] != b[j]
  {
    var c := a + b;
    if Distinct(c) {
      forall i, j | 0 <= i < j < |a| ensures a[i] != a[j] {
        assert c[i] == a[i] && c[j] == a[j];
      }
      forall i, j | 0 <= i < j < |b| ensures b[i] != b[j] {
        assert c[|a| + i] == b[i] && c[|a| + j] == b[j];
      }
      forall i, j | 0 <= i < |a| && 0 <= j < |b| ensures a[i] != b[j] {
        assert c[i] == a[i] && c[|a| + j] == b[j];
      }
    }
    if Distinct(a) && Distinct(b) && forall i, j :: 0 <= i < |a| && 0 <= j < |b| ==> a[i] != b[j] {
      forall i, j | 0 <= i < j < |c| ensures c[i] != c[j] {
        if j < |a| {
          assert c[i] == a[i] && c[j] == a[j];
        } else if i < |a| {
          assert c[i] == a[i] && c[j] == b[j - |a|];
        } else {
          assert c[i] == b[i - |a|] && c[j] == b[j - |a|];
        }
      }
    }
  }

  /** In a concatenation of distinct values, no value of the second part
      occurs in the first. */
  lemma {:induction false} DistinctConcatApart<T>(a: seq<T>, b: seq<T>, d: nat)
    requires Distinct(a + b)
    requires d < |b|
    ensures b[d] !in a
  {
    DistinctConcat(a, b);
  }

  /** Two different positions of a sequence of distinct values hold
      different values. */
  lemma {:induction false} DistinctAt<T>(s: seq<T>, a: nat, b: nat)
    requires Distinct(s)
    requires a < |s| && b < |s| && a != b
    ensures s[a] != s[b]
  {
    if a > b {
      DistinctAt(s, b, a);
    }
  }
}

=== FILE: manager.dfy ===
/** The layer manager as a state record: the active sequence of layers,
    the factory registry, the initialisation flag and the widget-to-layer
    attachments, plus the logs of the layer and factory objects it has
    freed. Every operation is a function from state to outcome. */
module LayerManager {
  import opened Wrappers
  import opened Layers
  import opened Registry
  import opened Merge
  import opened Batch

  datatype State = State(
    initialised: bool,
    active: seq<Layer>,
    factories: Registry,
    attached: map<WidgetId, LayerId>,
    next: LayerId,
    destroyed: seq<LayerId>,
    freedFactories: seq<FactoryId>)

  /** How an operation ends: normally, or at an assertion, with the state
      as the assertion left it. */
  datatype Outcome = Done(state: State) | Aborted(state: State, fault: Fault)

  /** A manager before `initialise`. */
  const Fresh: State := State(false, [], map[], map[], 0, [], [])

  /** The invariant of the manager: active names are unique, active objects
      are distinct and older than `next`, freed objects are never active, and
      every attachment points into the active sequence. */
  predicate Valid(s: State)
  {
    && Distinct(Names(s.active))
    && Distinct(Ids(s.active))
    && OlderThan(s.active, s.next)
    && (forall k :: 0 <= k < |s.destroyed| ==> s.destroyed[k] < s.next && s.destroyed[k] !in Ids(s.active))
    && (forall w :: w in s.attached ==> s.attached[w] in Ids(s.active))
  }

  lemma {:induction false} FreshValid()
    ensures Valid(Fresh)
  {
  }

  /** The attachments whose layer is still among `live`; a destroyed layer
      takes its nodes, and so its widgets' attachments, with it. */
  function Retain(attached: map<WidgetId, LayerId>, live: seq<Layer>): (r: map<WidgetId, LayerId>)
    ensures forall w :: w in r <==> w in attached && attached[w] in Ids(live)
    ensures forall w :: w in r ==> r[w] == attached[w]
  {
    map w | w in attached && attached[w] in Ids(live) :: attached[w]
  }

  /** `initialise`: refuses a second initialisation, then registers the two
      built-in factories under their type names. */
  function Initialise(s: State, simple: FactoryId, overlapped: FactoryId): (r: Outcome)
    ensures s.initialised ==> r == Aborted(s, AlreadyInitialised)
    ensures r.Done? <==> !s.initialised && SimpleLayerType !in s.factories && OverlappedLayerType !in s.factories
    ensures r.Done? ==> r.state == s.(initialised := true,
                                      factories := s.factories[SimpleLayerType := simple][OverlappedLayerType := overlapped])
    ensures r.Aborted? ==> r.state == s.(factories := r.state.factories)
    ensures r.Aborted? && !s.initialised ==>
              r.state.factories == s.factories || r.state.factories == s.factories[SimpleLayerType := simple]
  {
    if s.initialised then Aborted(s, AlreadyInitialised)
    else
      match AddLayerFactory(s.factories, SimpleLayerType, simple)
      case Failure(f) => Aborted(s, f)
      case Success(reg1) =>
        match AddLayerFactory(reg1, OverlappedLayerType, overlapped)
        case Failure(f) => Aborted(s.(factories := reg1), f)
        case Success(reg2) => Done(s.(initialised := true, factories := reg2))
  }

  /** `clear`: destroys every active layer, in order, and empties the
      active sequence. */
  function Clear(s: State): (r: State)
    ensures r.active == [] && r.attached == map[]
    ensures r.destroyed == s.destroyed + Ids(s.active)
    ensures r == s.(active := [], attached := map[], destroyed := r.destroyed)
  {
    s.(active := [], attached := Retain(s.attached, []), destroyed := s.destroyed + Ids(s.active))
  }

  /** `shutdown`: nothing when not initialised; otherwise unregisters and
      frees the built-in factories (the overlapped one first), clears the
      layers and drops the flag. Either removal asserts when its factory
      has already been taken out. */
  function Shutdown(s: State): (r: Outcome)
    ensures !s.initialised ==> r == Done(s)
    ensures s.initialised ==>
              (r.Done? <==> SimpleLayerType in s.factories && OverlappedLayerType in s.factories)
    ensures s.initialised && r.Done? ==>
              r.state == s.(initialised := false, active := [], attached := map[],
                            factories := s.factories - {SimpleLayerType, OverlappedLayerType},
                            destroyed := s.destroyed + Ids(s.active),
                            freedFactories := s.freedFactories + [s.factories[OverlappedLayerType], s.factories[SimpleLayerType]])
    ensures s.initialised && OverlappedLayerType !in s.factories ==>
              r == Aborted(s, FactoryNotFound(OverlappedLayerType))
    ensures s.initialised && OverlappedLayerType in s.factories && SimpleLayerType !in s.factories ==>
              r == Aborted(s.(factories := s.factories - {OverlappedLayerType},
                              freedFactories := s.freedFactories + [s.factories[OverlappedLayerType]]),
                           FactoryNotFound(SimpleLayerType))
  {
    if !s.initialised then Done(s)
    else
      match RemoveLayerFactoryNamed(s.factories, OverlappedLayerType, true)
      case Failure(f) => Aborted(s, f)
      case Success(rm1) =>
        var s1 := s.(factories := rm1.registry, freedFactories := s.freedFactories + rm1.freed);
        match RemoveLayerFactoryNamed(s1.factories, SimpleLayerType, true)
        case Failure(f) => Aborted(s1, f)
        case Success(rm2) =>
          assert rm2.registry == s.factories - {SimpleLayerType, OverlappedLayerType};
          var s2 := s1.(factories := rm2.registry, freedFactories := s1.freedFactories + rm2.freed);
          Done(Clear(s2).(initialised := false))
  }

  /** `merge` applied to the manager: the reconciled sequence becomes the
      active one, the deleted objects are logged, and attachments to
      destroyed layers go with them. */
  function ApplyMerge(s: State, batch: seq<Layer>): (r: State)
    ensures Names(r.active) == Names(batch)
    ensures r == s.(active := r.active, destroyed := r.destroyed, attached := r.attached)
  {
    var m := MergeAll(s.active, batch);
    s.(active := m.active, destroyed := s.destroyed + m.destroyed, attached := Retain(s.attached, m.active))
  }

  /** `_load`: builds the batch from the description's elements with fresh
      identities, then merges it. An assertion in the loop leaves the active
      layers as they were; the layers already built are lost. */
  function LoadLayers(s: State, elems: seq<Element>, v: Version): (r: Outcome)
    ensures r.Aborted? ==> r.state.active == s.active && r.state.attached == s.attached
                           && r.state.destroyed == s.destroyed && r.state.next >= s.next
    ensures r.Done? ==> Names(r.state.active) == BatchNames(elems)
    ensures r.state == s.(active := r.state.active, attached := r.state.attached,
                          destroyed := r.state.destroyed, next := r.state.next)
  {
    match BuildBatch(elems, v, s.factories, [], s.next)
    case Failed(f, leaked) => Aborted(s.(next := s.next + |leaked|), f)
    case Built(b) =>
      BuildBatchContents(elems, v, s.factories, [], s.next);
      assert Names(b) == BatchNames(elems) by {
        forall k | 0 <= k < |b| ensures Names(b)[k] == BatchNames(elems)[k] {
          assert b[0 + k] == LayerFor(Named(elems), v, s.factories, s.next, k);
        }
      }
      Done(ApplyMerge(s.(next := s.next + |b|), b))
  }

  /** `attachToLayerKeeper`: a widget that is not a root is refused; any
      earlier attachment is dropped, then the widget goes to the first
      active layer with the name, or stays detached when there is none. */
  function AttachToLayer(s: State, name: string, w: WidgetId, isRoot: bool): (r: Outcome)
    ensures r.Aborted? <==> !isRoot
    ensures r.Aborted? ==> r == Aborted(s, NotRootWidget(w))
    ensures r.state == s.(attached := r.state.attached)
    ensures r.Done? ==> forall w' :: w' != w ==>
              (w' in r.state.attached <==> w' in s.attached)
              && (w' in s.attached ==> r.state.attached[w'] == s.attached[w'])
    ensures r.Done? ==> (w in r.state.attached <==> IsExist(s.active, name))
    ensures r.Done? && w in r.state.attached ==>
              exists i :: 0 <= i < |s.active| && s.active[i].name == name && r.state.attached[w] == s.active[i].id
                          && forall j :: 0 <= j < i ==> s.active[j].name != name
  {
    if !isRoot then Aborted(s, NotRootWidget(w))
    else
      var detached := s.attached - {w};
      match FindByName(s.active, name)
      case None => Done(s.(attached := detached))
      case Some(i) => Done(s.(attached := detached[w := s.active[i].id]))
  }

  /** `detachFromLayer`, also what `_unlinkWidget` does when a widget dies:
      the widget loses its attachment; nothing else changes. */
  function DetachFromLayer(s: State, w: WidgetId): (r: State)
    ensures w !in r.attached
    ensures forall w' :: w' != w ==> (w' in r.attached <==> w' in s.attached)
    ensures forall w' :: w' in r.attached ==> r.attached[w'] == s.attached[w']
    ensures r == s.(attached := r.attached)
  {
    s.(attached := s.attached - {w})
  }

  /** A call on the manager's public interface, with what its environment
      supplies: the factories `initialise` creates, a parsed description,
      whether the widget is a root. */
  datatype Call =
    | InitialiseCall(simple: FactoryId, overlapped: FactoryId)
    | ShutdownCall
    | ClearCall
    | LoadCall(elems: seq<Element>, v: Version)
    | AttachCall(name: string, w: WidgetId, isRoot: bool)
    | DetachCall(w: WidgetId)
    | AddFactoryCall(name: string, factory: FactoryId)
    | RemoveFactoryCall(name: string, delete: bool)

  /** The state after one call. An aborted call leaves the state as the
      assertion found it, and the manager stays in use. */
  function Step(s: State, c: Call): (r: State)
    ensures r.active == s.active || c.LoadCall? || c.ClearCall? || c.ShutdownCall?
  {
    match c
    case InitialiseCall(simple, overlapped) => Initialise(s, simple, overlapped).state
    case ShutdownCall => Shutdown(s).state
    case ClearCall => Clear(s)
    case LoadCall(elems, v) => LoadLayers(s, elems, v).state
    case AttachCall(name, w, isRoot) => AttachToLayer(s, name, w, isRoot).state
    case DetachCall(w) => DetachFromLayer(s, w)
    case AddFactoryCall(name, factory) =>
      (match AddLayerFactory(s.factories, name, factory)
       case Success(reg) => s.(factories := reg)
       case Failure(_) => s)
    case RemoveFactoryCall(name, delete) =>
      (match RemoveLayerFactoryNamed(s.factories, name, delete)
       case Success(rm) => s.(factories := rm.registry, freedFactories := s.freedFactories + rm.freed)
       case Failure(_) => s)
  }

  /** The state after a sequence of calls, first to last. */
  function Run(s: State, calls: seq<Call>): State
    decreases |calls|
  {
    if calls == [] then s else Run(Step(s, calls[0]), calls[1..])
  }
}

=== FILE: manager_properties.dfy ===
/** What loading, attaching and the lifecycle promise about the manager's
    state, stated over several calls. */
module LayerManagerProperties {
  import opened Wrappers
  import opened Layers
  import opened Registry
  import opened Merge
  import opened MergeProperties
  import opened Batch
  import opened LayerManager

  /** A load goes through exactly when the description's names are unique
      and each named element's type has a registered factory. */
  lemma {:induction false} LoadSucceeds(s: State, elems: seq<Element>, v: Version)
    ensures LoadLayers(s, elems, v).Done? <==>
              Distinct(BatchNames(elems)) && TypesKnown(Named(elems), v, s.factories)
  {
    BuildBatchSucceeds(elems, v, s.factories, [], s.next);
    assert Names([]) + BatchNames(elems) == BatchNames(elems);
  }

  /** Each layer of a freshly built batch has a fresh identity, numbered
      from the manager's counter. */
  lemma {:induction false} BatchIdsFresh(s: State, elems: seq<Element>, v: Version)
    requires BuildBatch(elems, v, s.factories, [], s.next).Built?
    ensures FreshBatch(s.next, BuildBatch(elems, v, s.factories, [], s.next).batch)
  {
    var b := BuildBatch(elems, v, s.factories, [], s.next).batch;
    BuildBatchContents(elems, v, s.factories, [], s.next);
    forall k | 0 <= k < |b| ensures b[k].id == s.next + k {
      assert b[0 + k] == LayerFor(Named(elems), v, s.factories, s.next, k);
    }
  }

  /** The merge inside a successful load, spelled out. */
  lemma {:induction false} LoadIsMerge(s: State, elems: seq<Element>, v: Version)
    requires LoadLayers(s, elems, v).Done?
    ensures BuildBatch(elems, v, s.factories, [], s.next).Built?
    ensures var b := BuildBatch(elems, v, s.factories, [], s.next).batch;
            var m := MergeAll(s.active, b);
            var t := LoadLayers(s, elems, v).state;
            && t.active == m.active
            && t.destroyed == s.destroyed + m.destroyed
            && t.attached == Retain(s.attached, m.active)
            && t.next == s.next + |b|
            && Names(b) == BatchNames(elems)
  {
  }

  /** The batch's identities are the counter's next values. */
  predicate FreshBatch(next: LayerId, b: seq<Layer>)
  {
    forall k :: 0 <= k < |b| ==> b[k].id == next + k
  }

  /** A successful load leaves the reconciliation of the active layers with
      the description's batch: each name keeps its old layer, at the first
      position the description gives it, and every other position holds the
      layer built for it. */
  lemma {:induction false} LoadIsReconciled(s: State, elems: seq<Element>, v: Version)
    requires Valid(s)
    requires LoadLayers(s, elems, v).Done?
    ensures BuildBatch(elems, v, s.factories, [], s.next).Built?
    ensures LoadLayers(s, elems, v).state.active
            == Reconciled(s.active, BuildBatch(elems, v, s.factories, [], s.next).batch)
  {
    MergeIsReconciled(s.active, BuildBatch(elems, v, s.factories, [], s.next).batch);
  }

  /** Distinct old layers and a fresh batch are distinct objects. */
  lemma {:induction false} InputsDistinct(olds: seq<Layer>, b: seq<Layer>, next: LayerId)
    requires Distinct(Ids(olds)) && OlderThan(olds, next)
    requires FreshBatch(next, b)
    ensures Distinct(Ids(olds) + Ids(b))
  {
    DistinctConcat(Ids(olds), Ids(b));
  }

  /** Every object among the old layers and a fresh batch is older than the
      advanced counter, and is an old layer or newer than the old counter. */
  lemma {:induction false} InputBound(olds: seq<Layer>, b: seq<Layer>, next: LayerId, x: LayerId)
    requires OlderThan(olds, next)
    requires FreshBatch(next, b)
    requires x in multiset(Ids(olds) + Ids(b))
    ensures x < next + |b| && (x in Ids(olds) || x >= next)
  {
    var inputs := Ids(olds) + Ids(b);
    var k :| 0 <= k < |inputs| && inputs[k] == x;
    if k >= |olds| {
      assert inputs[k] == b[k - |olds|].id;
    } else {
      assert inputs[k] == Ids(olds)[k];
    }
  }

  /** An object the merge leaves active is an old layer or a batch layer. */
  lemma {:induction false} MergedActiveBound(olds: seq<Layer>, b: seq<Layer>, next: LayerId, i: nat)
    requires OlderThan(olds, next)
    requires FreshBatch(next, b)
    requires i < |MergeAll(olds, b).active|
    ensures var x := MergeAll(olds, b).active[i].id;
            x < next + |b| && (x in Ids(olds) || x >= next)
  {
    var m := MergeAll(olds, b);
    MergeConserves(olds, b);
    var x := Ids(m.active)[i];
    assert x in multiset(Ids(m.active));
    assert multiset(Ids(olds) + Ids(b)) == multiset(Ids(olds)) + multiset(Ids(b));
    InputBound(olds, b, next, x);
  }

  /** An object the merge frees is an old layer or a batch layer. */
  lemma {:induction false} MergedFreedBound(olds: seq<Layer>, b: seq<Layer>, next: LayerId, d: nat)
    requires OlderThan(olds, next)
    requires FreshBatch(next, b)
    requires d < |MergeAll(olds, b).destroyed|
    ensures MergeAll(olds, b).destroyed[d] < next + |b|
    ensures MergeAll(olds, b).destroyed[d] in Ids(olds) || MergeAll(olds, b).destroyed[d] >= next
  {
    var m := MergeAll(olds, b);
    MergeConserves(olds, b);
    var x := m.destroyed[d];
    assert x in multiset(m.destroyed);
    assert multiset(Ids(olds) + Ids(b)) == multiset(Ids(olds)) + multiset(Ids(b));
    InputBound(olds, b, next, x);
  }

  /** An object the merge frees is not active after it, and the active
      objects are distinct. */
  lemma {:induction false} MergedApart(olds: seq<Layer>, b: seq<Layer>, next: LayerId)
    requires Distinct(Ids(olds)) && OlderThan(olds, next)
    requires FreshBatch(next, b)
    ensures var m := MergeAll(olds, b);
            Distinct(Ids(m.active)) && forall d :: 0 <= d < |m.destroyed| ==> m.destroyed[d] !in Ids(m.active)
  {
    var m := MergeAll(olds, b);
    InputsDistinct(olds, b, next);
    MergeOwnership(olds, b);
    DistinctConcat(Ids(m.active), m.destroyed);
    forall d | 0 <= d < |m.destroyed| ensures m.destroyed[d] !in Ids(m.active) {
      DistinctConcatApart(Ids(m.active), m.destroyed, d);
    }
  }

  /** An object freed before the merge is not active after it. */
  lemma {:induction false} EarlierFreedStayFreed(s: State, b: seq<Layer>, k: nat)
    requires Valid(s)
    requires FreshBatch(s.next, b)
    requires k < |s.destroyed|
    ensures s.destroyed[k] !in Ids(MergeAll(s.active, b).active)
  {
    var m := MergeAll(s.active, b);
    var x := s.destroyed[k];
    assert x !in Ids(s.active) && x < s.next;
    forall i | 0 <= i < |m.active| ensures Ids(m.active)[i] != x {
      MergedActiveBound(s.active, b, s.next, i);
    }
  }

  /** After merging a fresh batch, every freed object, earlier or new, is
      older than the advanced counter and not active. */
  lemma {:induction false} MergedFreedSound(s: State, b: seq<Layer>)
    requires Valid(s)
    requires FreshBatch(s.next, b)
    ensures var m := MergeAll(s.active, b);
            var freed := s.destroyed + m.destroyed;
            forall k :: 0 <= k < |freed| ==> freed[k] < s.next + |b| && freed[k] !in Ids(m.active)
  {
    var m := MergeAll(s.active, b);
    var freed := s.destroyed + m.destroyed;
    MergedApart(s.active, b, s.next);
    forall k | 0 <= k < |freed|
      ensures freed[k] < s.next + |b| && freed[k] !in Ids(m.active)
    {
      if k < |s.destroyed| {
        assert freed[k] == s.destroyed[k];
        EarlierFreedStayFreed(s, b, k);
      } else {
        assert freed[k] == m.destroyed[k - |s.destroyed|];
        MergedFreedBound(s.active, b, s.next, k - |s.destroyed|);
      }
    }
  }

  /** Merging a fresh batch with unique names keeps the invariant. */
  lemma {:induction false} ApplyMergeValid(s: State, b: seq<Layer>)
    requires Valid(s)
    requires FreshBatch(s.next, b)
    requires Distinct(Names(b))
    ensures Valid(ApplyMerge(s.(next := s.next + |b|), b))
  {
    var t := ApplyMerge(s.(next := s.next + |b|), b);
    var m := MergeAll(s.active, b);
    assert t.active == m.active && t.destroyed == s.destroyed + m.destroyed && t.next == s.next + |b|;
    MergedApart(s.active, b, s.next);
    forall i | 0 <= i < |t.active| ensures t.active[i].id < t.next {
      MergedActiveBound(s.active, b, s.next, i);
    }
    assert OlderThan(t.active, t.next);
    MergedFreedSound(s, b);
  }

  /** A successful load keeps the manager's invariant: in particular the
      active names stay unique and no freed layer is active. */
  lemma {:induction false} LoadPreservesValid(s: State, elems: seq<Element>, v: Version)
    requires Valid(s)
    requires LoadLayers(s, elems, v).Done?
    ensures Valid(LoadLayers(s, elems, v).state)
  {
    LoadIsMerge(s, elems, v);
    var b := BuildBatch(elems, v, s.factories, [], s.next).batch;
    LoadSucceeds(s, elems, v);
    BatchIdsFresh(s, elems, v);
    ApplyMergeValid(s, b);
  }

  /** A layer whose name reappears in the reloaded description keeps its
      identity, sits where the description puts its name, and keeps every
      widget attached to it. */
  lemma {:induction false} LoadKeepsLayer(s: State, elems: seq<Element>, v: Version, j: nat)
    requires Valid(s)
    requires LoadLayers(s, elems, v).Done?
    requires j < |s.active|
    requires s.active[j].name in BatchNames(elems)
    ensures var t := LoadLayers(s, elems, v).state;
            var l := s.active[j];
            && FindByName(t.active, l.name).Some?
            && t.active[FindByName(t.active, l.name).value] == l
            && forall w :: w in s.attached && s.attached[w] == l.id ==> w in t.attached && t.attached[w] == l.id
  {
    var t := LoadLayers(s, elems, v).state;
    var l := s.active[j];
    LoadIsMerge(s, elems, v);
    var b := BuildBatch(elems, v, s.factories, [], s.next).batch;
    MergeKeepsMatched(s.active, b, j);
    FindByNameOnNames(t.active, b, l.name);
    var p := FindByName(t.active, l.name).value;
    assert Ids(t.active)[p] == l.id;
  }

  /** A layer whose name the reloaded description lacks is destroyed, no
      layer of that name is active, and its widgets are detached. */
  lemma {:induction false} LoadDropsLayer(s: State, elems: seq<Element>, v: Version, j: nat)
    requires Valid(s)
    requires LoadLayers(s, elems, v).Done?
    requires j < |s.active|
    requires s.active[j].name !in BatchNames(elems)
    ensures var t := LoadLayers(s, elems, v).state;
            var l := s.active[j];
            && l.id in t.destroyed
            && !IsExist(t.active, l.name)
            && forall w :: w in s.attached && s.attached[w] == l.id ==> w !in t.attached
  {
    var t := LoadLayers(s, elems, v).state;
    var l := s.active[j];
    LoadIsMerge(s, elems, v);
    var b := BuildBatch(elems, v, s.factories, [], s.next).batch;
    var m := MergeAll(s.active, b);
    MergeDestroysVanished(s.active, b, j);
    BatchIdsFresh(s, elems, v);
    InputsDistinct(s.active, b, s.next);
    MergeOwnership(s.active, b);
    DistinctConcat(Ids(m.active), m.destroyed);
    var d :| 0 <= d < |m.destroyed| && m.destroyed[d] == l.id;
    forall i | 0 <= i < |m.active| ensures Ids(m.active)[i] != l.id {
    }
  }

  /** A layer the reloaded description introduces starts with no widget. */
  lemma {:induction false} LoadNewLayerEmpty(s: State, elems: seq<Element>, v: Version, i: nat)
    requires Valid(s)
    requires LoadLayers(s, elems, v).Done?
    requires i < |LoadLayers(s, elems, v).state.active|
    requires !IsExist(s.active, LoadLayers(s, elems, v).state.active[i].name)
    ensures var t := LoadLayers(s, elems, v).state;
            forall w :: w in t.attached ==> t.attached[w] != t.active[i].id
  {
    var t := LoadLayers(s, elems, v).state;
    LoadIsMerge(s, elems, v);
    var b := BuildBatch(elems, v, s.factories, [], s.next).batch;
    assert t.active[i].name == Names(t.active)[i] == Names(b)[i] == b[i].name;
    MergeKeepsNewcomers(s.active, b, i);
    BatchIdsFresh(s, elems, v);
    forall w | w in t.attached ensures t.attached[w] != t.active[i].id {
      var q :| 0 <= q < |s.active| && Ids(s.active)[q] == s.attached[w];
    }
  }

  /** Attaching keeps the invariant. */
  lemma {:induction false} AttachPreservesValid(s: State, name: string, w: WidgetId, isRoot: bool)
    requires Valid(s)
    ensures Valid(AttachToLayer(s, name, w, isRoot).state)
  {
    var t := AttachToLayer(s, name, w, isRoot).state;
    forall w' | w' in t.attached ensures t.attached[w'] in Ids(s.active) {
      if w' == w && AttachToLayer(s, name, w, isRoot).Done? {
        var i :| 0 <= i < |s.active| && s.active[i].name == name && t.attached[w] == s.active[i].id;
        assert Ids(s.active)[i] == s.active[i].id;
      }
    }
  }

  /** Attaching to one layer and then to another leaves the widget under the
      second one only. */
  lemma {:induction false} AttachTwiceLastWins(s: State, first: string, second: string, w: WidgetId, l: nat)
    requires Valid(s)
    requires l < |s.active| && s.active[l].name == second
    ensures var s1 := AttachToLayer(s, first, w, true).state;
            var s2 := AttachToLayer(s1, second, w, true).state;
            w in s2.attached && s2.attached[w] == s.active[l].id
  {
    var s1 := AttachToLayer(s, first, w, true).state;
    var s2 := AttachToLayer(s1, second, w, true).state;
    var i :| 0 <= i < |s.active| && s.active[i].name == second && s2.attached[w] == s.active[i].id
             && forall j :: 0 <= j < i ==> s.active[j].name != second;
    assert Names(s.active)[i] == Names(s.active)[l];
  }

  /** Detaching undoes an attachment: whatever layer the widget was
      attached to, afterwards it is attached nowhere and every other
      attachment is as before. */
  lemma {:induction false} AttachThenDetach(s: State, name: string, w: WidgetId)
    ensures DetachFromLayer(AttachToLayer(s, name, w, true).state, w) == DetachFromLayer(s, w)
  {
    var a := AttachToLayer(s, name, w, true).state;
    var d1 := DetachFromLayer(a, w);
    var d2 := DetachFromLayer(s, w);
    assert d1.attached.Keys == d2.attached.Keys;
    assert d1.attached == d2.attached;
  }

  /** Clearing keeps the invariant: the freed layers are no longer active. */
  lemma {:induction false} ClearPreservesValid(s: State)
    requires Valid(s)
    ensures Valid(Clear(s))
  {
    var t := Clear(s);
    forall k | 0 <= k < |t.destroyed| ensures t.destroyed[k] < t.next {
      if k >= |s.destroyed| {
        assert t.destroyed[k] == Ids(s.active)[k - |s.destroyed|];
      }
    }
  }

  /** Initialising a manager and shutting it down again leaves the registry
      as it was, with both built-in factories freed (the overlapped one
      first) and every layer destroyed. */
  lemma {:induction false} InitialiseShutdownRoundTrip(s: State, simple: FactoryId, overlapped: FactoryId)
    requires !s.initialised
    requires SimpleLayerType !in s.factories && OverlappedLayerType !in s.factories
    ensures Initialise(s, simple, overlapped).Done?
    ensures var t := Shutdown(Initialise(s, simple, overlapped).state);
            && t.Done?
            && !t.state.initialised
            && t.state.factories == s.factories
            && t.state.freedFactories == s.freedFactories + [overlapped, simple]
            && t.state.active == []
            && t.state.destroyed == s.destroyed + Ids(s.active)
  {
    var i := Initialise(s, simple, overlapped).state;
    assert SimpleLayerType != OverlappedLayerType;
    assert i.factories - {SimpleLayerType, OverlappedLayerType} == s.factories;
  }

  /** Initialising, successful or not, keeps the invariant: it touches only
      the registry and the flag. */
  lemma {:induction false} InitialisePreservesValid(s: State, simple: FactoryId, overlapped: FactoryId)
    requires Valid(s)
    ensures Valid(Initialise(s, simple, overlapped).state)
  {
    var t := Initialise(s, simple, overlapped).state;
    assert t.active == s.active && t.destroyed == s.destroyed && t.attached == s.attached && t.next == s.next;
  }

  /** Shutting down, successful or not, keeps the invariant. */
  lemma {:induction false} ShutdownPreservesValid(s: State)
    requires Valid(s)
    ensures Valid(Shutdown(s).state)
  {
    var t := Shutdown(s).state;
    if s.initialised && Shutdown(s).Done? {
      forall k | 0 <= k < |t.destroyed| ensures t.destroyed[k] < t.next {
        if k >= |s.destroyed| {
          assert t.destroyed[k] == Ids(s.active)[k - |s.destroyed|];
        }
      }
    }
  }

  /** Detaching keeps the invariant. */
  lemma {:induction false} DetachPreservesValid(s: State, w: WidgetId)
    requires Valid(s)
    ensures Valid(DetachFromLayer(s, w))
  {
    var t := DetachFromLayer(s, w);
    forall w' | w' in t.attached ensures t.attached[w'] in Ids(t.active) {
      assert t.attached[w'] == s.attached[w'];
    }
  }

  /** A load that stops at an assertion keeps the invariant: only the
      counter has moved on, past the layers it leaked. */
  lemma {:induction false} LoadAbortPreservesValid(s: State, elems: seq<Element>, v: Version)
    requires Valid(s)
    requires LoadLayers(s, elems, v).Aborted?
    ensures Valid(LoadLayers(s, elems, v).state)
  {
    var t := LoadLayers(s, elems, v).state;
    assert t.active == s.active && t.destroyed == s.destroyed && t.attached == s.attached && t.next >= s.next;
  }

  /** Every call keeps the invariant, whether it completes or aborts. */
  lemma {:induction false} StepPreservesValid(s: State, c: Call)
    requires Valid(s)
    ensures Valid(Step(s, c))
  {
    match c
    case InitialiseCall(simple, overlapped) => InitialisePreservesValid(s, simple, overlapped);
    case ShutdownCall => ShutdownPreservesValid(s);
    case ClearCall => ClearPreservesValid(s);
    case LoadCall(elems, v) =>
      if LoadLayers(s, elems, v).Done? {
        LoadPreservesValid(s, elems, v);
      } else {
        LoadAbortPreservesValid(s, elems, v);
      }
    case AttachCall(name, w, isRoot) => AttachPreservesValid(s, name, w, isRoot);
    case DetachCall(w) => DetachPreservesValid(s, w);
    case AddFactoryCall(name, factory) =>
    case RemoveFactoryCall(name, delete) =>
  }

  /** Every state a manager reaches from before initialisation satisfies the
      invariant: in particular no two active layers share a name, and no
      freed layer is active. */
  lemma {:induction false} ReachableValid(calls: seq<Call>)
    ensures Valid(Run(Fresh, calls))
  {
    FreshValid();
    RunPreservesValid(Fresh, calls);
  }

  /** Each call of a sequence keeps the invariant, so the whole run does. */
  lemma {:induction false} RunPreservesValid(s: State, calls: seq<Call>)
    requires Valid(s)
    ensures Valid(Run(s, calls))
    decreases |calls|
  {
    if calls != [] {
      StepPreservesValid(s, calls[0]);
      RunPreservesValid(Step(s, calls[0]), calls[1..]);
    }
  }
}

=== FILE: merge.dfy ===
/** `merge`: reconciliation of a freshly built batch of layers with the
    active sequence. The batch is the array of slots; each old layer, in
    order, either takes over the first slot carrying its name (the slot's
    occupant is deleted) or is destroyed. The slots then become the active
    sequence. */
module Merge {
  import opened Wrappers
  import opened Layers

  /** The new active sequence and, in order, every layer object the merge
      deleted. */
  datatype MergeResult = MergeResult(active: seq<Layer>, destroyed: seq<LayerId>)

  /** One pass of the outer loop, for the old layer `keeper`. */
  function MergeOne(slots: seq<Layer>, keeper: Layer): (r: MergeResult)
    ensures Names(r.active) == Names(slots)
  {
    match FindByName(slots, keeper.name)
    case Some(i) =>
      var placed := slots[i := keeper];
      assert Names(placed) == Names(slots);
      MergeResult(placed, [slots[i].id])
    case None => MergeResult(slots, [keeper.id])
  }

  /** One pass loses no object and invents none: the slot's former occupant
      or the old layer itself is deleted. */
  lemma {:induction false} MergeOneConserves(slots: seq<Layer>, keeper: Layer)
    ensures var r := MergeOne(slots, keeper);
            multiset(Ids(r.active)) + multiset(r.destroyed) == multiset(Ids(slots)) + multiset{keeper.id}
  {
    match FindByName(slots, keeper.name)
    case Some(i) =>
      assert Ids(slots[i := keeper]) == Ids(slots)[i := keeper.id];
    case None =>
  }

  /** The whole outer loop: the old layers are handled first to last. */
  function MergeAll(olds: seq<Layer>, slots: seq<Layer>): (r: MergeResult)
    ensures Names(r.active) == Names(slots)
    decreases |olds|
  {
    if olds == [] then MergeResult(slots, [])
    else
      var step := MergeOne(slots, olds[0]);
      var rest := MergeAll(olds[1..], step.active);
      MergeResult(rest.active, step.destroyed + rest.destroyed)
  }

  lemma {:induction false} IdsCons(ls: seq<Layer>)
    requires ls != []
    ensures multiset(Ids(ls)) == multiset{ls[0].id} + multiset(Ids(ls[1..]))
  {
    assert Ids(ls) == [ls[0].id] + Ids(ls[1..]);
  }

  /** The merge loses no object and invents none: the active objects and the
      deleted ones are, together, the old layers and the candidates. */
  lemma {:induction false} MergeConserves(olds: seq<Layer>, slots: seq<Layer>)
    ensures var r := MergeAll(olds, slots);
            multiset(Ids(r.active)) + multiset(r.destroyed) == multiset(Ids(olds)) + multiset(Ids(slots))
    decreases |olds|
  {
    if olds != [] {
      var step := MergeOne(slots, olds[0]);
      var rest := MergeAll(olds[1..], step.active);
      var r := MergeAll(olds, slots);
      assert r.active == rest.active && r.destroyed == step.destroyed + rest.destroyed;
      MergeOneConserves(slots, olds[0]);
      MergeConserves(olds[1..], step.active);
      IdsCons(olds);
      assert multiset(r.destroyed) == multiset(step.destroyed) + multiset(rest.destroyed);
      Rebalance(multiset(Ids(rest.active)), multiset(step.destroyed), multiset(rest.destroyed),
                multiset(Ids(olds[1..])), multiset(Ids(slots)), multiset{olds[0].id}, multiset(Ids(step.active)));
    }
  }

  /** Bookkeeping step for the ownership count of `MergeAll`. */
  lemma {:induction false} Rebalance<T>(a: multiset<T>, d1: multiset<T>, d2: multiset<T>, o: multiset<T>, s: multiset<T>, x: multiset<T>, t: multiset<T>)
    requires a + d2 == o + t
    requires t + d1 == s + x
    ensures a + (d1 + d2) == (x + o) + s
  {
    calc {
      a + (d1 + d2);
      (a + d2) + d1;
      (o + t) + d1;
      o + (t + d1);
      o + (s + x);
    }
  }

  /** The reconciliation the merge is meant to compute, stated per slot: the
      slot that first carries a name held by an old layer gets that old
      layer; every other slot keeps its candidate. */
  function Reconciled(olds: seq<Layer>, news: seq<Layer>): (r: seq<Layer>)
    ensures |r| == |news|
  {
    seq(|news|, i requires 0 <= i < |news| => ReconciledAt(olds, news, i))
  }

  function ReconciledAt(olds: seq<Layer>, news: seq<Layer>, i: nat): Layer
    requires i < |news|
  {
    match FindByName(olds, news[i].name)
    case Some(j) => if FindByName(news, news[i].name) == Some(i) then olds[j] else news[i]
    case None => news[i]
  }

  /** The first old layer's name belongs to no later old layer. */
  lemma {:induction false} HeadNameNotInTail(olds: seq<Layer>)
    requires olds != []
    requires Distinct(Names(olds))
    ensures !IsExist(olds[1..], olds[0].name)
  {
    forall j | 0 <= j < |olds[1..]| ensures olds[1..][j].name != olds[0].name {
      assert Names(olds)[0] != Names(olds)[j + 1];
    }
  }

  /** Slot `i` of the reconciliation is unchanged by handling the first old
      layer. */
  lemma {:induction false} ReconciledStepAt(olds: seq<Layer>, slots: seq<Layer>, i: nat)
    requires olds != []
    requires Distinct(Names(olds))
    requires i < |slots|
    ensures ReconciledAt(olds[1..], MergeOne(slots, olds[0]).active, i) == ReconciledAt(olds, slots, i)
  {
    var o := olds[0];
    var s1 := MergeOne(slots, o).active;
    var n := slots[i].name;
    assert s1[i].name == Names(s1)[i] == Names(slots)[i] == n;
    FindByNameOnNames(s1, slots, n);
    if n == o.name {
      HeadNameNotInTail(olds);
      assert FindByName(olds, n) == Some(0);
      assert FindByName(olds[1..], n) == None;
    } else {
      assert FindByName(s1, o.name) == FindByName(slots, o.name) by {
        FindByNameOnNames(s1, slots, o.name);
      }
      assert s1[i] == slots[i];
    }
  }

  /** Handling the first old layer leaves, for the remaining ones, the same
      reconciliation target. */
  lemma {:induction false} ReconciledStep(olds: seq<Layer>, slots: seq<Layer>)
    requires olds != []
    requires Distinct(Names(olds))
    ensures Reconciled(olds[1..], MergeOne(slots, olds[0]).active) == Reconciled(olds, slots)
  {
    var a := Reconciled(olds[1..], MergeOne(slots, olds[0]).active);
    var b := Reconciled(olds, slots);
    forall i | 0 <= i < |slots|
      ensures a[i] == b[i]
    {
      ReconciledStepAt(olds, slots, i);
    }
  }

  /** With unique names among the old layers, the merge computes exactly
      the reconciliation. */
  lemma {:induction false} MergeIsReconciled(olds: seq<Layer>, slots: seq<Layer>)
    requires Distinct(Names(olds))
    ensures MergeAll(olds, slots).active == Reconciled(olds, slots)
    decreases |olds|
  {
    if olds == [] {
      assert Reconciled(olds, slots) == slots;
    } else {
      var step := MergeOne(slots, olds[0]);
      assert Names(olds[1..]) == Names(olds)[1..];
      MergeIsReconciled(olds[1..], step.active);
      ReconciledStep(olds, slots);
    }
  }
}

module MergeProperties {
  import opened Wrappers
  import opened Layers
  import opened Merge

  /** Every old layer whose name the batch lacks is destroyed, and no layer
      of that name remains active. */
  lemma {:induction false} MergeDestroysVanished(olds: seq<Layer>, slots: seq<Layer>, j: nat)
    requires j < |olds|
    requires !IsExist(slots, olds[j].name)
    ensures olds[j].id in MergeAll(olds, slots).destroyed
    ensures !IsExist(MergeAll(olds, slots).active, olds[j].name)
    decreases |olds|
  {
    var step := MergeOne(slots, olds[0]);
    if j > 0 {
      assert olds[1..][j - 1] == olds[j];
      MergeDestroysVanished(olds[1..], step.active, j - 1);
    }
  }

  /** With unique old names, an old layer whose name reappears in the batch
      sits, after the merge, in the slot of that name. */
  lemma {:induction false} MergeKeepsMatched(olds: seq<Layer>, news: seq<Layer>, j: nat)
    requires Distinct(Names(olds))
    requires j < |olds|
    requires IsExist(news, olds[j].name)
    ensures FindByName(news, olds[j].name).Some?
    ensures MergeAll(olds, news).active[FindByName(news, olds[j].name).value] == olds[j]
  {
    var p := FindByName(news, olds[j].name).value;
    MergeIsReconciled(olds, news);
    FindByNameUnique(olds, j);
    assert Reconciled(olds, news)[p] == ReconciledAt(olds, news, p);
  }

  /** A slot whose name no old layer carries keeps the freshly built
      candidate: every pass of the outer loop either puts its old layer in a
      slot of another name or destroys it. */
  lemma {:induction false} MergeKeepsNewcomers(olds: seq<Layer>, news: seq<Layer>, i: nat)
    requires i < |news|
    requires !IsExist(olds, news[i].name)
    ensures MergeAll(olds, news).active[i] == news[i]
    decreases |olds|
  {
    if olds != [] {
      var step := MergeOne(news, olds[0]);
      assert olds[0].name != news[i].name;
      if FindByName(news, olds[0].name).Some? {
        var k := FindByName(news, olds[0].name).value;
        assert k != i;
        assert step.active == news[k := olds[0]];
      }
      assert step.active[i] == news[i];
      forall j | 0 <= j < |olds[1..]| ensures olds[1..][j].name != news[i].name {
        assert olds[1..][j] == olds[j + 1];
      }
      MergeKeepsNewcomers(olds[1..], step.active, i);
    }
  }

  /** Each active layer after the merge is either the candidate of its slot
      or one of the old layers. */
  lemma {:induction false} MergeActiveFromInputs(olds: seq<Layer>, news: seq<Layer>, k: nat)
    requires Distinct(Names(olds))
    requires k < |news|
    ensures var a := MergeAll(olds, news).active[k];
            a == news[k] || exists j :: 0 <= j < |olds| && a == olds[j]
  {
    MergeIsReconciled(olds, news);
    assert Reconciled(olds, news)[k] == ReconciledAt(olds, news, k);
  }

  /** When the old layers and the candidates are distinct objects, nothing
      leaks and nothing is freed twice: every object ends up active or
      destroyed, exactly once. */
  lemma {:induction false} MergeOwnership(olds: seq<Layer>, news: seq<Layer>)
    requires Distinct(Ids(olds) + Ids(news))
    ensures multiset(Ids(MergeAll(olds, news).active) + MergeAll(olds, news).destroyed) == multiset(Ids(olds) + Ids(news))
    ensures Distinct(Ids(MergeAll(olds, news).active) + MergeAll(olds, news).destroyed)
  {
    var r := MergeAll(olds, news);
    var ins := Ids(olds) + Ids(news);
    var outs := Ids(r.active) + r.destroyed;
    MergeConserves(olds, news);
    assert multiset(outs) == multiset(ins);
    DistinctMultiplicity(ins);
    DistinctMultiplicity(outs);
    forall x ensures multiset(outs)[x] <= 1 {
      assert multiset(outs)[x] == multiset(ins)[x];
    }
  }

  /** A slot `k` other than the displaced candidate's slot `p` does not hold
      that candidate: it holds its own candidate or an old layer. */
  lemma {:induction false} MergeOtherSlotNotDisplaced(olds: seq<Layer>, news: seq<Layer>, p: nat, k: nat)
    requires Distinct(Names(olds))
    requires Distinct(Ids(olds) + Ids(news))
    requires p < |news| && k < |news| && k != p
    ensures MergeAll(olds, news).active[k].id != news[p].id
  {
    var a := MergeAll(olds, news).active;
    var all := Ids(olds) + Ids(news);
    assert all[|olds| + p] == news[p].id;
    MergeActiveFromInputs(olds, news, k);
    if a[k] == news[k] {
      assert all[|olds| + k] == news[k].id;
      DistinctAt(all, |olds| + k, |olds| + p);
    } else {
      var j' :| 0 <= j' < |olds| && a[k] == olds[j'];
      assert all[j'] == olds[j'].id;
      DistinctAt(all, j', |olds| + p);
    }
  }

  /** With unique old names and distinct objects, the candidate displaced by
      a matching old layer is no longer active. */
  lemma {:induction false} MergeDisplacedNotActive(olds: seq<Layer>, news: seq<Layer>, j: nat)
    requires Distinct(Names(olds))
    requires Distinct(Ids(olds) + Ids(news))
    requires j < |olds|
    requires IsExist(news, olds[j].name)
    ensures FindByName(news, olds[j].name).Some?
    ensures news[FindByName(news, olds[j].name).value].id !in Ids(MergeAll(olds, news).active)
  {
    var a := MergeAll(olds, news).active;
    var p := FindByName(news, olds[j].name).value;
    var all := Ids(olds) + Ids(news);
    forall k | 0 <= k < |a|
      ensures Ids(a)[k] != news[p].id
    {
      if k == p {
        MergeKeepsMatched(olds, news, j);
        assert all[j] == olds[j].id;
        assert all[|olds| + p] == news[p].id;
        DistinctAt(all, j, |olds| + p);
      } else {
        MergeOtherSlotNotDisplaced(olds, news, p, k);
      }
    }
  }

  /** With unique old names and distinct objects, the candidate displaced by
      a matching old layer is destroyed. */
  lemma {:induction false} MergeDestroysDisplaced(olds: seq<Layer>, news: seq<Layer>, j: nat)
    requires Distinct(Names(olds))
    requires Distinct(Ids(olds) + Ids(news))
    requires j < |olds|
    requires IsExist(news, olds[j].name)
    ensures FindByName(news, olds[j].name).Some?
    ensures news[FindByName(news, olds[j].name).value].id in MergeAll(olds, news).destroyed
  {
    var r := MergeAll(olds, news);
    var p := FindByName(news, olds[j].name).value;
    var all := Ids(olds) + Ids(news);
    var x := news[p].id;
    assert all[|olds| + p] == x;
    MergeDisplacedNotActive(olds, news, j);
    MergeConserves(olds, news);
    assert multiset(Ids(r.active))[x] == 0;
    assert multiset(all)[x] > 0;
    assert multiset(all) == multiset(Ids(r.active)) + multiset(r.destroyed);
    assert multiset(r.destroyed)[x] > 0;
  }

  /** The merge with a repeated old name, as the loop is written: the first
      old layer takes the first slot with its name and the batch's layer
      there is deleted; then the second old layer finds the same slot and
      deletes the first. The last same-named old layer survives. */
  lemma {:induction false} MergeDuplicateOldNames(a1: Layer, a2: Layer, news: seq<Layer>, p: nat)
    requires a1.name == a2.name
    requires FindByName(news, a1.name) == Some(p)
    ensures MergeAll([a1, a2], news) == MergeResult(news[p := a2], [news[p].id, a1.id])
  {
    var m1 := MergeOne(news, a1);
    assert m1 == MergeResult(news[p := a1], [news[p].id]);
    FindByNameOnNames(m1.active, news, a1.name);
    assert m1.active[p := a2] == news[p := a2];
    var m2 := MergeOne(m1.active, a2);
    assert m2 == MergeResult(news[p := a2], [a1.id]);
    assert [a1, a2][1..] == [a2];
    assert [a2][1..] == [];
    assert MergeAll([a2], m1.active) == MergeResult(m2.active, m2.destroyed + []);
  }
}

=== FILE: queries.dfy ===
/** Read-only queries over the active sequence. What a single layer answers
    (whether it owns a node, which item lies under a point) is its own
    business and enters as a function parameter. */
module Queries {
  import opened Wrappers
  import opened Layers

  /** `isExistItem`: some active layer owns `node`, as each layer's own
      `existItemNode` reports it. */
  function IsExistItem(active: seq<Layer>, node: NodeId, existItemNode: (Layer, NodeId) -> bool): (r: bool)
    ensures r <==> exists i :: 0 <= i < |active| && existItemNode(active[i], node)
  {
    if active == [] then false
    else if existItemNode(active[0], node) then true
    else
      var rest := IsExistItem(active[1..], node, existItemNode);
      assert forall i :: 0 <= i < |active| - 1 ==> active[1..][i] == active[i + 1];
      rest
  }

  /** `getWidgetFromPoint`: asks the layers from the top (last) down to the
      bottom (first); the first one that has an item at the point decides. */
  method GetWidgetFromPoint(active: seq<Layer>, itemAt: (Layer, int, int) -> Option<WidgetId>, left: int, top: int)
    returns (r: Option<WidgetId>)
    ensures r.None? <==> forall i :: 0 <= i < |active| ==> itemAt(active[i], left, top).None?
    ensures r.Some? ==> exists i :: 0 <= i < |active| && itemAt(active[i], left, top) == r
                                    && forall j :: i < j < |active| ==> itemAt(active[j], left, top).None?
  {
    var k := |active|;
    while k > 0
      invariant 0 <= k <= |active|
      invariant forall j :: k <= j < |active| ==> itemAt(active[j], left, top).None?
      decreases k
    {
      var item := itemAt(active[k - 1], left, top);
      if item.Some? {
        return item;
      }
      k := k - 1;
    }
    return None;
  }

  /** Layers drawn later are on top: an item of the last layer hides an item
      of any layer below it at the same point. */
  method TopLayerWins(below: Layer, above: Layer, itemAt: (Layer, int, int) -> Option<WidgetId>, left: int, top: int)
    returns (r: Option<WidgetId>)
    requires itemAt(above, left, top).Some?
    ensures r == itemAt(above, left, top)
  {
    var layers := [below, above];
    assert layers[1] == above;
    r := GetWidgetFromPoint(layers, itemAt, left, top);
    var i :| 0 <= i < |layers| && itemAt(layers[i], left, top) == r
             && forall j :: i < j < |layers| ==> itemAt(layers[j], left, top).None?;
    assert i == 1;
  }
}

=== FILE: registry.dfy ===
/** The layer-factory registry: a map from type name to factory handle,
    with the add, remove-by-name and remove-by-handle operations of the
    layer manager. */
module Registry {
  import opened Wrappers
  import opened Layers

  type Registry = map<string, FactoryId>

  /** Result of removing a factory by name: the smaller registry, and the
      factory handle released with it (empty unless deletion was asked). */
  datatype Removal = Removal(registry: Registry, freed: seq<FactoryId>)

  /** `addLayerFactory`: fails when the name is taken, otherwise binds it. */
  function AddLayerFactory(reg: Registry, name: string, factory: FactoryId): (r: Result<Registry, Fault>)
    ensures r.Failure? <==> name in reg
    ensures r.Failure? ==> r.error == FactoryExists(name)
    ensures r.Success? ==> r.value.Keys == reg.Keys + {name} && r.value[name] == factory
    ensures r.Success? ==> forall k :: k in reg ==> r.value[k] == reg[k]
  {
    if name in reg then Failure(FactoryExists(name)) else Success(reg[name := factory])
  }

  /** `removeLayerFactory(name, delete)`: fails when the name is unknown,
      otherwise drops exactly that key and, if asked, releases its factory. */
  function RemoveLayerFactoryNamed(reg: Registry, name: string, delete: bool): (r: Result<Removal, Fault>)
    ensures r.Failure? <==> name !in reg
    ensures r.Failure? ==> r.error == FactoryNotFound(name)
    ensures r.Success? ==> r.value.registry.Keys == reg.Keys - {name}
    ensures r.Success? ==> forall k :: k in r.value.registry ==> r.value.registry[k] == reg[k]
    ensures r.Success? ==> r.value.freed == (if delete then [reg[name]] else [])
  {
    if name !in reg then Failure(FactoryNotFound(name))
    else Success(Removal(reg - {name}, if delete then [reg[name]] else []))
  }

  /** Registering a fresh name and then removing it by name gives back the
      original registry, releasing the factory just registered. */
  lemma {:induction false} AddThenRemoveNamed(reg: Registry, name: string, factory: FactoryId)
    requires name !in reg
    ensures AddLayerFactory(reg, name, factory).Success?
    ensures RemoveLayerFactoryNamed(AddLayerFactory(reg, name, factory).value, name, true)
         == Success(Removal(reg, [factory]))
  {
    var added := AddLayerFactory(reg, name, factory).value;
    assert added - {name} == reg;
  }

  /** The order of `std::string` keys in the registry's `std::map`:
      lexicographic on characters, a proper prefix coming first. */
  predicate StrLess(a: string, b: string)
    decreases |a|
  {
    if a == [] then b != []
    else if b == [] then false
    else if a[0] != b[0] then a[0] < b[0]
    else StrLess(a[1..], b[1..])
  }

  /** No key comes before itself. */
  lemma {:induction false} StrLessIrreflexive(a: string)
    ensures !StrLess(a, a)
    decreases |a|
  {
    if a != [] {
      StrLessIrreflexive(a[1..]);
    }
  }

  lemma {:induction false} StrLessTransitive(a: string, b: string, c: string)
    requires StrLess(a, b) && StrLess(b, c)
    ensures StrLess(a, c)
    decreases |a|
  {
    if a != [] && b != [] && c != [] && a[0] == b[0] && b[0] == c[0] {
      StrLessTransitive(a[1..], b[1..], c[1..]);
    }
  }

  lemma {:induction false} StrLessTotal(a: string, b: string)
    requires a != b
    ensures StrLess(a, b) || StrLess(b, a)
    decreases |a|
  {
    if a != [] && b != [] && a[0] == b[0] {
      assert a == [a[0]] + a[1..] && b == [b[0]] + b[1..];
      StrLessTotal(a[1..], b[1..]);
    }
  }

  /** `k` is the first key bound to `factory` that the map walk meets. */
  predicate FirstBoundKey(reg: Registry, factory: FactoryId, k: string)
  {
    k in reg && reg[k] == factory
    && forall k' :: k' in reg && reg[k'] == factory && k' != k ==> StrLess(k, k')
  }

  /** The map walk meets at most one first key bound to a handle, so removal
      by handle erases a well-defined entry. */
  lemma {:induction false} FirstBoundKeyUnique(reg: Registry, factory: FactoryId, k1: string, k2: string)
    requires FirstBoundKey(reg, factory, k1) && FirstBoundKey(reg, factory, k2)
    ensures k1 == k2
  {
    if k1 != k2 {
      StrLessTransitive(k1, k2, k1);
      StrLessIrreflexive(k1);
    }
  }

  /** `removeLayerFactory(factory)`: walks the map in ascending key order
      and erases the first entry bound to `factory`; an exception when no
      entry is. */
  method RemoveLayerFactoryByHandle(reg: Registry, factory: FactoryId) returns (r: Result<Registry, Fault>)
    ensures r.Failure? <==> factory !in reg.Values
    ensures r.Failure? ==> r.error == FactoryHandleNotFound(factory)
    ensures r.Success? ==> exists k :: FirstBoundKey(reg, factory, k) && r.value == reg - {k}
  {
    var pending := reg.Keys;
    var first: Option<string> := None;
    while pending != {}
      invariant pending <= reg.Keys
      invariant first.None? ==> forall k :: k in reg && k !in pending ==> reg[k] != factory
      invariant first.Some? ==> first.value in reg && first.value !in pending && reg[first.value] == factory
      invariant first.Some? ==> forall k :: k in reg && k !in pending && reg[k] == factory && k != first.value
                                           ==> StrLess(first.value, k)
      decreases pending
    {
      var k :| k in pending;
      if reg[k] == factory {
        if first.None? {
          first := Some(k);
        } else if StrLess(k, first.value) {
          forall k' | k' in reg && k' !in pending && reg[k'] == factory && k' != k
            ensures StrLess(k, k')
          {
            if k' != first.value {
              StrLessTransitive(k, first.value, k');
            }
          }
          first := Some(k);
        } else {
          StrLessTotal(k, first.value);
        }
      }
      pending := pending - {k};
    }
    if first.None? {
      r := Failure(FactoryHandleNotFound(factory));
    } else {
      r := Success(reg - {first.value});
    }
  }
}

=== FILE: wrappers.dfy ===
/** The Option and Result types the layer-manager model uses. */
module Wrappers {

  /** A value that may be absent; stands in for a nullable pointer. */
  datatype Option<+T> = None | Some(value: T)

  /** Either a computed value or the fault that aborted the computation. */
  datatype Result<+R, +E> = Success(value: R) | Failure(error: E)
}
